=== FILE: README.md ===
# jquants-mcp tool layer in Dafny

jquants-mcp is an MCP server that exposes the J-Quants market-data API as eleven
tools. Its own logic is small: the date validator its pydantic parameter classes share,
and the tool handlers that validate, forward one call to the J-Quants client with fixed
keyword names, and turn the reply into records or into an `"Error: …"` string. This
project models both layers as pure functions and proves what they promise.

- `wrappers.dfy` (`Wrappers`): `Option` for `str | None`, `Result` for raise-or-return.
- `date_format.dfy` (`DateFormat`): `validate_date_format` from `jquants_mcp/libs/models.py`.
  Absent or empty input becomes `""`. Otherwise every `-` is removed and the rest must match
  `^\d{8}$` under `re.match`. The model keeps the Python detail that `$` also matches before
  one final newline.
- `params.dfy` (`Params`): the five parameter classes, built with every field passed
  explicitly (a `None` included), as the handlers build them. Each constructor validates its date
  fields in declaration order and leaves `code` / `section` untouched. On failure it returns
  one `ValidationError` that lists every failing field. The five validators are identical in
  the source, so all five classes use the one `NormalizeDate`.
- `frames.dfy` (`Frames`): `df.to_dict(orient="records")`, modelled as
  `dict(zip(columns, row))` for each row in order.
- `upstream.dfy` (`Upstream`): the J-Quants client as a function `Call -> Reply`. A call is a
  method name plus keyword arguments. A reply is a table or a raised exception: a
  `TypeError`, another `Exception`, or a `BaseException` that is not an `Exception`.
- `tools.dfy` (`Tools`): the eleven `@mcp.tool()` handlers of `jquants_mcp/__main__.py`. Each
  takes an `Env` (the client, plus the `str(e)` renderer for caught exceptions) and the raw
  optional arguments. It returns an `Invocation`: the upstream calls made, in order, and the
  outcome (`Records`, `ErrorText`, or `Escaped` for an exception the `except Exception`
  clause does not catch).
- `tool_properties.dfy` (`ToolProperties`): the registered tool set (`Invoke`) and
  properties that hold for every tool.

Where the documented behaviour and the code differ, the model follows the code. The
documented date format is exactly eight digits. Because `re.match` with `$` also accepts a
final `"\n"`, the code accepts `"20240105\n"` and forwards it with the newline
(`DateFormat.TrailingNewlineExample`).

The handlers catch `Exception` only. A `BaseException` that is not an `Exception`, such as
`KeyboardInterrupt` or `SystemExit` raised during the blocking client call, passes through
instead of becoming error text (`Tools.Finish`, `Outcome.Escaped`).

## Model

| member | source | states |
|---|---|---|
| `DateFormat.StripHyphens` | jquants_mcp/libs/models.py:22 | The result contains no `-`, is no longer than the input, and keeps every other character with its multiplicity. |
| `DateFormat.StripHyphensAppend` | jquants_mcp/libs/models.py:22 | Hyphen removal distributes over concatenation, so with the singleton cases it fixes the result to be the non-hyphen characters in order. |
| `DateFormat.StripHyphensFixesHyphenFree` | jquants_mcp/libs/models.py:22 | A string without hyphens comes back unchanged. |
| `DateFormat.MatchesDatePattern` | jquants_mcp/libs/models.py:23 | Eight ASCII digits, then the end of the string or one final `"\n"`. |
| `DateFormat.NormalizeDate` | jquants_mcp/libs/models.py:18-25 | `None` and `""` give `""` without error. A non-empty input succeeds exactly when its hyphen-stripped form matches `^\d{8}$` (with Python's `$`), and the result is that stripped form. Every failure carries the fixed message "Date must be in YYYYMMDD or YYYY-MM-DD format". Every success is hyphen-free and is `""` or matches the pattern. |
| `DateFormat.NormalizeDateIdempotent` | jquants_mcp/libs/models.py:18-25 | Validating a value the validator returned gives the same result again. |
| `DateFormat.HyphenPlacementIrrelevant` | jquants_mcp/libs/models.py:21-23 | Inserting a hyphen at any position of a non-empty input leaves the outcome unchanged. |
| `DateFormat.CompactDateAccepted` | jquants_mcp/libs/models.py:22-25 | Any eight ASCII digits are accepted unchanged: there is no month, day or leap-year check. |
| `DateFormat.IsoDateAccepted` | jquants_mcp/libs/models.py:21-25 | A `YYYY-MM-DD` string of digits is accepted, and the result is the digits without the two hyphens. |
| `DateFormat.StrayHyphensExample` | jquants_mcp/libs/models.py:22-25 | `"2-0240105-"` normalises to `"20240105"`. |
| `DateFormat.ImpossibleDateExample` | jquants_mcp/libs/models.py:22-25 | `"2024-13-99"` normalises to `"20241399"`. |
| `DateFormat.TrailingNewlineExample` | jquants_mcp/libs/models.py:23-25 | `"20240105\n"` is accepted and returned with its newline. |
| `DateFormat.SlashDateRejected` | jquants_mcp/libs/models.py:23-24 | `"2024/01/05"` fails with the fixed message. |
| `DateFormat.ShortDateRejected` | jquants_mcp/libs/models.py:23-24 | `"240105"` fails with the fixed message. |
| `DateFormat.LoneHyphenRejected` | jquants_mcp/libs/models.py:19-24 | `"-"` is not treated as absent: it strips to `""` and fails. |
| `Params.DateErrors` | jquants_mcp/libs/models.py:23-24 | A date field adds no error entry when the validator accepts it, otherwise exactly one entry that names the field, carries the fixed message and records the rejected input. |
| `Params.NewDateRangeParams` | jquants_mcp/libs/models.py:6-25 | The object is built exactly when `date`, `from_date` and `to_date` all validate. It then holds `code` untouched and each date normalised. On failure the error names `DateRangeParams` and lists one entry per failing date field, in declaration order (`date`, `from_date`, `to_date`), each with the fixed message and its rejected input. |
| `Params.NewListedIssuesParams` | jquants_mcp/libs/models.py:28-40 | Only `date` is validated. `code` passes through, and the one possible error names `date`. |
| `Params.NewFinancialParams` | jquants_mcp/libs/models.py:43-55 | Only `date` is validated. `code` passes through, and the one possible error names `date`. |
| `Params.NewMarginInterestParams` | jquants_mcp/libs/models.py:58-72 | Same contract as `DateRangeParams`, under the class name `MarginInterestParams`: built exactly when all three dates validate, otherwise one entry per failing date field in declaration order. |
| `Params.NewInvestorTradingParams` | jquants_mcp/libs/models.py:75-90 | Only `from_date` and `to_date` are validated, and `section` passes through. On failure the error lists one entry per failing field among those two, `from_date` first. |
| `Params.ErrorsCarryRejectedInput` | jquants_mcp/libs/models.py:32-40 | Two different rejected dates give two different validation errors, because each error records its input. |
| `Params.AbsentArgumentsBuild` | jquants_mcp/libs/models.py:16-20 | With every argument passed as `None`, as the handlers pass them, all five classes build: date fields hold `""`, and `code` / `section` stay `None`. |
| `Frames.RowRecord` | jquants_mcp/__main__.py:59 | A row's record has exactly the column labels of the zipped prefix as keys. |
| `Frames.ToRecords` | jquants_mcp/__main__.py:59 | One record per table row, with no filtering. |
| `Frames.RowRecordLastWins` | jquants_mcp/__main__.py:59 | A column maps to the cell of its last occurrence among the zipped pairs. |
| `Frames.RecordsMirrorRows` | jquants_mcp/__main__.py:59 | For a rectangular table with distinct columns, record `i` has every column as a key, and column `j` maps to cell `j` of row `i`, in row order. |
| `Tools.OrEmpty` | jquants_mcp/__main__.py:58 | `v or ""`: absent becomes `""`, and a present string is kept. |
| `Tools.Fail` | jquants_mcp/__main__.py:60-62 | A caught exception becomes text that starts with `"Error: "`, followed by the exception's text. |
| `Tools.Finish` | jquants_mcp/__main__.py:58-62 | A table reply becomes its records, with as many as the table has rows. An `Exception` reply becomes the error text. Only a non-`Exception` reply escapes. |
| `Tools.Forward` | jquants_mcp/__main__.py:58-62 | Exactly the one given call is made. The outcome is records exactly when the reply is a table, and they are that table's records. It is error text starting with `"Error: "` exactly when the reply is an `Exception`. Otherwise the reply's exception escapes. |
| `Tools.GetListedIssues` | jquants_mcp/__main__.py:45-62 | An invalid `date` means no call, and the outcome is the rendered `ListedIssuesParams` error. Otherwise exactly `get_eq_master(code=code or "", date_yyyymmdd=<normalised date>)` is called. |
| `Tools.GetDailyQuotes` | jquants_mcp/__main__.py:65-96 | Any invalid date means no call and the rendered `DateRangeParams` error. Otherwise exactly `get_eq_bars_daily(code, date_yyyymmdd, from_yyyymmdd, to_yyyymmdd)` is called with `or ""` / normalised values. |
| `Tools.GetFinancialSummary` | jquants_mcp/__main__.py:99-124 | An invalid `date` means no call. Otherwise the first call is `get_fin_summary(code, date_yyyymmdd)`. A second call happens exactly when the first raised `TypeError`, and it is `get_fin_summary(code, date)`; the last call's reply decides the outcome. |
| `Tools.GetEarningsCalendar` | jquants_mcp/__main__.py:127-137 | No validation. Exactly `get_eq_earnings_cal()` with no arguments. |
| `Tools.GetIndicesDaily` | jquants_mcp/__main__.py:140-170 | Validation first. Then exactly `get_idx_bars_daily(code, date_yyyymmdd, from_yyyymmdd, to_yyyymmdd)`. |
| `Tools.GetMarketSegmentBreakdown` | jquants_mcp/__main__.py:173-196 | Validation first. Then exactly `get_mkt_breakdown(date_yyyymmdd, from_yyyymmdd, to_yyyymmdd)`, with no `code`. |
| `Tools.GetFinancialDividends` | jquants_mcp/__main__.py:199-229 | Validation first. Then exactly `get_fin_dividend(code, date_yyyymmdd, from_yyyymmdd, to_yyyymmdd)`. |
| `Tools.GetFinancialStatementsDetail` | jquants_mcp/__main__.py:232-252 | Validation of `date` through `FinancialParams` first. Then exactly `get_fin_details(code, date_yyyymmdd)`. |
| `Tools.GetShortSaleRatio` | jquants_mcp/__main__.py:255-285 | Validation first. Then exactly `get_mkt_short_sale_report(code, disclosed_date, disclosed_date_from, disclosed_date_to)`. |
| `Tools.GetMarketMarginInterest` | jquants_mcp/__main__.py:288-320 | Validation through `MarginInterestParams` first. Then exactly `get_mkt_margin_interest(code, date_yyyymmdd, from_yyyymmdd, to_yyyymmdd)`. |
| `Tools.GetInvestorTradingTrends` | jquants_mcp/__main__.py:323-351 | Validation of the two range dates first. Then exactly `get_eq_investor_types(section, from_yyyymmdd, to_yyyymmdd)`. |
| `ToolProperties.ValidationGuardsUpstream` | jquants_mcp/__main__.py:54-62 | For every tool, no upstream call is made exactly when a date the tool validates is invalid, and then the outcome is error text. |
| `ToolProperties.AbsentArgumentsReachUpstreamEmpty` | jquants_mcp/__main__.py:87-92 | For every tool with all arguments absent, validation passes and every keyword argument of every call is `""`. |
| `ToolProperties.FailuresBecomeErrorText` | jquants_mcp/__main__.py:94-96 | For every tool, error outcomes start with `"Error: "`. An escaping outcome is the last call's non-`Exception` exception. |
| `ToolProperties.SuccessIsUpstreamTable` | jquants_mcp/__main__.py:113-121 | For every tool, a records outcome is the last reply's table converted row by row. |
| `ToolProperties.RetryOnlyAfterTypeError` | jquants_mcp/__main__.py:113-119 | No tool makes more than two calls, and every tool but `get_financial_summary` makes at most one. A second call follows a `TypeError` and differs from the first only in spelling the date keyword `date`. |
| `ToolProperties.NoRetryAfterOtherFailure` | jquants_mcp/__main__.py:113-124 | If the first `get_fin_summary` call raises a non-`TypeError` `Exception`, there is no retry, and the outcome is that exception's error text. |
| `ToolProperties.EarningsCalendarIgnoresArguments` | jquants_mcp/__main__.py:127-137 | `get_earnings_calendar` gives the same result whatever arguments are supplied, and its only call is `get_eq_earnings_cal()`. |
| `ToolProperties.HandlersSeeOnlyNormalisedDates` | jquants_mcp/__main__.py:83-92 | For every tool, two valid argument sets that agree on the arguments the tool reads, with each date compared by its normalised value, produce identical invocations. Arguments the tool does not read do not matter. |
| `ToolProperties.InvestorTradingIgnoresCodeAndDate` | jquants_mcp/__main__.py:323-347 | For any arguments, `get_investor_trading_trends` gives the same invocation whatever `code` and `date` are, even a `date` that would not validate, whether its own range dates validate or not. |

## Left out

- DateFormat.NormalizeDate: `\d` is modelled as the ASCII digits only. Python's `\d` also matches other Unicode decimal digits (full-width digits, for instance), which the source accepts and the model rejects.
- The wording of pydantic's `ValidationError` text and of `str(e)` for client exceptions. They are the `render` function of `Tools.Env`. The model fixes the `"Error: "` prefix and the value rendered: the class name, and for each failing field its name, message and rejected input.
- What the J-Quants client does with a call: HTTP, authentication, pagination, parsing. It is the `api` function of `Tools.Env`.
- Frames.RowRecord: a record is a Dafny `map`, which has no key order. The source's dicts keep the column order, and that order shows in the wire output.
- Failures inside `df.to_dict` itself, and pandas' conversion of numpy scalars to Python values. Cells are already primitive values (`Frames.Cell`).
- `jquants_mcp/libs/client.py` (reading `JQUANTS_API_KEY`, building the client, exiting on failure). It is process start-up with no logic to state.
- The `--help` handling and its static text (`jquants_mcp/__main__.py:4-18`), logging setup and `logger.error` calls, FastMCP registration, `async` dispatch and `mcp.run()`. These are runtime and host concerns. `ToolProperties.Invoke` stands for the registration.
- The host's checking of argument types and unknown argument names before a handler runs.

=== FILE: date_format.dfy ===
/**
  The date validator shared by every parameter class of jquants_mcp/libs/models.py
  (`validate_date_format`): an absent or empty date becomes "", anything else loses
  its hyphens and must then match `^\d{8}$`.
 */
module DateFormat {
  import opened Wrappers

  /** The text of the ValueError raised for a malformed date. */
  const DateFormatMessage: string := "Date must be in YYYYMMDD or YYYY-MM-DD format"

  /** The regex class `\d`, restricted to the ASCII digits. */
  predicate IsDigit(c: char)
  {
    '0' <= c <= '9'
  }

  /** Python's `s.replace("-", "")`: every hyphen removed, every other character kept in order. */
  function StripHyphens(s: string): (r: string)
    ensures '-' !in r
    ensures |r| <= |s|
    ensures forall c :: c != '-' ==> multiset(r)[c] == multiset(s)[c]
  {
    if s == [] then []
    else
      assert s == [s[0]] + s[1..];
      if s[0] == '-' then StripHyphens(s[1..]) else [s[0]] + StripHyphens(s[1..])
  }

  /**
    `re.match(r"^\d{8}$", s)` succeeds: eight digits at the start, then `$`, which
    Python lets match at the very end or just before one final newline.
   */
  predicate MatchesDatePattern(s: string)
  {
    && (|s| == 8 || (|s| == 9 && s[8] == '\n'))
    && forall i :: 0 <= i < 8 ==> IsDigit(s[i])
  }

  /** `validate_date_format` as one pure function; `Failure` stands for the raised ValueError. */
  function NormalizeDate(raw: Option<string>): (r: Result<string, string>)
    ensures raw == None || raw == Some("") ==> r == Success("")
    ensures raw.Some? && raw.value != "" ==> (r.Success? <==> MatchesDatePattern(StripHyphens(raw.value)))
    ensures r.Success? && raw.Some? && raw.value != "" ==> r.value == StripHyphens(raw.value)
    ensures r.Failure? ==> r.error == DateFormatMessage
    ensures r.Success? ==> '-' !in r.value && (r.value == "" || MatchesDatePattern(r.value))
  {
    if raw.None? || raw.value == "" then Success("")
    else
      var clean := StripHyphens(raw.value);
      if MatchesDatePattern(clean) then Success(clean) else Failure(DateFormatMessage)
  }

  /** The validator lets `raw` through. */
  predicate Accepts(raw: Option<string>)
  {
    NormalizeDate(raw).Success?
  }

  /** The value the validator returns for an accepted `raw`. */
  function Clean(raw: Option<string>): string
    requires Accepts(raw)
  {
    NormalizeDate(raw).value
  }

  /** Hyphen removal distributes over concatenation. */
  lemma {:induction false} StripHyphensAppend(a: string, b: string)
    ensures StripHyphens(a + b) == StripHyphens(a) + StripHyphens(b)
  {
    if a == [] {
      assert a + b == b;
    } else {
      assert (a + b)[0] == a[0];
      assert (a + b)[1..] == a[1..] + b;
      StripHyphensAppend(a[1..], b);
    }
  }

  /** A string without hyphens is left as it is. */
  lemma {:induction false} StripHyphensFixesHyphenFree(s: string)
    requires '-' !in s
    ensures StripHyphens(s) == s
  {
    if s != [] {
      assert s == [s[0]] + s[1..];
      assert forall c :: c in s[1..] ==> c in s;
      StripHyphensFixesHyphenFree(s[1..]);
    }
  }

  /** Validating a value the validator produced returns it unchanged. */
  lemma NormalizeDateIdempotent(raw: Option<string>)
    requires Accepts(raw)
    ensures NormalizeDate(Some(Clean(raw))) == NormalizeDate(raw)
  {
    var v := Clean(raw);
    if v != "" {
      StripHyphensFixesHyphenFree(v);
    }
  }

  /** A hyphen inserted anywhere into a non-empty date changes nothing. */
  lemma HyphenPlacementIrrelevant(s: string, i: nat)
    requires s != "" && i <= |s|
    ensures NormalizeDate(Some(s[..i] + "-" + s[i..])) == NormalizeDate(Some(s))
  {
    StripHyphensAppend(s[..i] + "-", s[i..]);
    StripHyphensAppend(s[..i], "-");
    StripHyphensAppend(s[..i], s[i..]);
    assert StripHyphens("-") == "";
    assert s[..i] + s[i..] == s;
    assert StripHyphens(s[..i] + "-" + s[i..]) == StripHyphens(s);
  }

  /** Any eight digits are accepted unchanged: there is no month, day or leap-year check. */
  lemma CompactDateAccepted(s: string)
    requires |s| == 8 && forall i :: 0 <= i < 8 ==> IsDigit(s[i])
    ensures NormalizeDate(Some(s)) == Success(s)
  {
    assert '-' !in s by {
      forall c | c in s ensures c != '-' {
        var i :| 0 <= i < |s| && s[i] == c;
      }
    }
    StripHyphensFixesHyphenFree(s);
  }

  /** A `YYYY-MM-DD` date of digits is accepted and loses its two hyphens. */
  lemma IsoDateAccepted(s: string)
    requires |s| == 10 && s[4] == '-' && s[7] == '-'
    requires forall i :: 0 <= i < 10 && i != 4 && i != 7 ==> IsDigit(s[i])
    ensures NormalizeDate(Some(s)) == Success(s[..4] + s[5..7] + s[8..])
  {
    var y, m, d := s[..4], s[5..7], s[8..];
    assert s == y + "-" + m + "-" + d;
    forall part | part in [y, m, d] ensures StripHyphens(part) == part {
      assert forall c :: c in part ==> IsDigit(c);
      StripHyphensFixesHyphenFree(part);
    }
    StripHyphensAppend(y + "-" + m + "-", d);
    StripHyphensAppend(y + "-" + m, "-");
    StripHyphensAppend(y + "-", m);
    StripHyphensAppend(y, "-");
    assert StripHyphens("-") == "";
    var clean := y + m + d;
    assert StripHyphens(s) == clean;
    assert forall i :: 0 <= i < 8 ==> IsDigit(clean[i]) by {
      forall i | 0 <= i < 8 ensures IsDigit(clean[i]) {
        if i < 4 { assert clean[i] == s[i]; }
        else if i < 6 { assert clean[i] == s[i + 1]; }
        else { assert clean[i] == s[i + 2]; }
      }
    }
  }

  /** Stray hyphens anywhere are dropped. */
  lemma StrayHyphensExample()
    ensures NormalizeDate(Some("2-0240105-")) == Success("20240105")
  {
    var s := "20240105";
    CompactDateAccepted(s);
    HyphenPlacementIrrelevant(s, 1);
    var t := s[..1] + "-" + s[1..];
    assert t == "2-0240105";
    HyphenPlacementIrrelevant(t, |t|);
    assert t[..|t|] + "-" + t[|t|..] == "2-0240105-";
  }

  /** Month 13 and day 99 pass: there is no calendar check. */
  lemma ImpossibleDateExample()
    ensures NormalizeDate(Some("2024-13-99")) == Success("20241399")
  {
    IsoDateAccepted("2024-13-99");
    assert "2024-13-99"[..4] + "2024-13-99"[5..7] + "2024-13-99"[8..] == "20241399";
  }

  /** `$` also matches before a final newline, which is kept in the result. */
  lemma TrailingNewlineExample()
    ensures NormalizeDate(Some("20240105\n")) == Success("20240105\n")
  {
    var s := "20240105\n";
    StripHyphensFixesHyphenFree(s);
    assert MatchesDatePattern(s);
  }

  /** A slash is not a separator the validator knows. */
  lemma SlashDateRejected()
    ensures NormalizeDate(Some("2024/01/05")) == Failure(DateFormatMessage)
  {
  }

  /** Six digits are too few. */
  lemma ShortDateRejected()
    ensures NormalizeDate(Some("240105")) == Failure(DateFormatMessage)
  {
  }

  /** A lone hyphen is not empty, so it is not treated as absent, and it leaves no digits. */
  lemma LoneHyphenRejected()
    ensures NormalizeDate(Some("-")) == Failure(DateFormatMessage)
  {
  }
}

=== FILE: frames.dfy ===
/**
  The tables the upstream client returns and their conversion to the wire-visible
  record list, `df.to_dict(orient="records")`: one record per row, in row order, each
  record built as `dict(zip(columns, row))`.
 */
module Frames {

  /** A flattened primitive cell value. */
  datatype Cell = Null | Bool(b: bool) | Int(i: int) | Real(repr: string) | Text(s: string)

  /** One record: column name to cell. */
  type Record = map<string, Cell>

  /** A data frame: its column labels and its rows of cells. */
  datatype Table = Table(columns: seq<string>, rows: seq<seq<Cell>>)

  function Min(a: nat, b: nat): nat
  {
    if a < b then a else b
  }

  /**
    `dict(zip(columns, row))`: pairs stop at the shorter of the two sequences, and a
    column label that repeats keeps the cell of its last occurrence.
   */
  function RowRecord(columns: seq<string>, row: seq<Cell>): (m: Record)
    ensures m.Keys == set j | 0 <= j < Min(|columns|, |row|) :: columns[j]
    decreases |columns|
  {
    var n := Min(|columns|, |row|);
    if n == 0 then map[]
    else RowRecord(columns[..n - 1], row[..n - 1])[columns[n - 1] := row[n - 1]]
  }

  /** The records of a table: one per row, in the table's row order. */
  function ToRecords(t: Table): (rs: seq<Record>)
    ensures |rs| == |t.rows|
  {
    seq(|t.rows|, i requires 0 <= i < |t.rows| => RowRecord(t.columns, t.rows[i]))
  }

  /** A column holds the cell of its last occurrence among the zipped pairs. */
  lemma {:induction false} RowRecordLastWins(columns: seq<string>, row: seq<Cell>, j: nat)
    requires j < Min(|columns|, |row|)
    requires forall k :: j < k < Min(|columns|, |row|) ==> columns[k] != columns[j]
    ensures columns[j] in RowRecord(columns, row)
    ensures RowRecord(columns, row)[columns[j]] == row[j]
  {
    var n := Min(|columns|, |row|);
    if j < n - 1 {
      var c, r := columns[..n - 1], row[..n - 1];
      assert Min(|c|, |r|) == n - 1;
      RowRecordLastWins(c, r, j);
    }
  }

  /** Every column label appears at most once. */
  predicate DistinctColumns(columns: seq<string>)
  {
    forall j, k :: 0 <= j < k < |columns| ==> columns[j] != columns[k]
  }

  /** Every row has exactly one cell per column. */
  predicate Rectangular(t: Table)
  {
    forall i :: 0 <= i < |t.rows| ==> |t.rows[i]| == |t.columns|
  }

  /**
    For a rectangular table with distinct columns, the records are exactly its rows in
    order: record i has every column as a key, and column j maps to cell j of row i.
   */
  lemma RecordsMirrorRows(t: Table)
    requires Rectangular(t) && DistinctColumns(t.columns)
    ensures |ToRecords(t)| == |t.rows|
    ensures forall i :: 0 <= i < |t.rows| ==> ToRecords(t)[i].Keys == set c | c in t.columns
    ensures forall i, j :: 0 <= i < |t.rows| && 0 <= j < |t.columns| ==>
              t.columns[j] in ToRecords(t)[i] && ToRecords(t)[i][t.columns[j]] == t.rows[i][j]
  {
    var rs := ToRecords(t);
    forall i | 0 <= i < |t.rows| ensures rs[i].Keys == set c | c in t.columns {
      assert rs[i] == RowRecord(t.columns, t.rows[i]);
      assert Min(|t.columns|, |t.rows[i]|) == |t.columns|;
      forall c | c in t.columns ensures c in rs[i].Keys {
        var j :| 0 <= j < |t.columns| && t.columns[j] == c;
      }
    }
    forall i, j | 0 <= i < |t.rows| && 0 <= j < |t.columns|
      ensures t.columns[j] in rs[i] && rs[i][t.columns[j]] == t.rows[i][j]
    {
      assert rs[i] == RowRecord(t.columns, t.rows[i]);
      RowRecordLastWins(t.columns, t.rows[i], j);
    }
  }
}

=== FILE: params.dfy ===
/**
  The five pydantic parameter classes of jquants_mcp/libs/models.py. Constructing one with
  every field passed explicitly, as every handler does (a `None` included), runs the shared
  date validator on the class's date fields, in declaration order; the
  code and section fields carry no validator and keep whatever the caller passed. When
  any date field fails, construction raises one ValidationError listing every failing
  field.
 */
module Params {
  import opened Wrappers
  import opened DateFormat

  /** One entry of a ValidationError: the field, the validator's message and the rejected input. */
  datatype FieldError = FieldError(field: string, message: string, input: Option<string>)

  /** pydantic's ValidationError: the class being built and its failing fields, in order. */
  datatype ValidationError = ValidationError(model: string, errors: seq<FieldError>)

  datatype DateRangeParams = DateRangeParams(
    code: Option<string>, date: Option<string>, fromDate: Option<string>, toDate: Option<string>)

  datatype ListedIssuesParams = ListedIssuesParams(code: Option<string>, date: Option<string>)

  datatype FinancialParams = FinancialParams(code: Option<string>, date: Option<string>)

  datatype MarginInterestParams = MarginInterestParams(
    code: Option<string>, date: Option<string>, fromDate: Option<string>, toDate: Option<string>)

  datatype InvestorTradingParams = InvestorTradingParams(
    section: Option<string>, fromDate: Option<string>, toDate: Option<string>)

  /** The value a validated date field holds: the validator never returns None. */
  function Normalized(raw: Option<string>): Option<string>
    requires Accepts(raw)
  {
    Some(Clean(raw))
  }

  /** The error entries one date field contributes: none, or one naming the field. */
  function DateErrors(field: string, raw: Option<string>): (errs: seq<FieldError>)
    ensures errs == [] <==> Accepts(raw)
    ensures errs != [] ==> errs == [FieldError(field, DateFormatMessage, raw)]
  {
    match NormalizeDate(raw)
    case Success(_) => []
    case Failure(msg) => [FieldError(field, msg, raw)]
  }


  function NewDateRangeParams(code: Option<string>, date: Option<string>, fromDate: Option<string>, toDate: Option<string>)
    : (r: Result<DateRangeParams, ValidationError>)
    ensures r.Success? <==> Accepts(date) && Accepts(fromDate) && Accepts(toDate)
    ensures r.Success? ==> r.value == DateRangeParams(code, Normalized(date), Normalized(fromDate), Normalized(toDate))
    ensures r.Failure? ==> r.error.model == "DateRangeParams"
    ensures r.Failure? ==>
      r.error.errors == DateErrors("date", date) + DateErrors("from_date", fromDate) + DateErrors("to_date", toDate)
  {
    var errs := DateErrors("date", date) + DateErrors("from_date", fromDate) + DateErrors("to_date", toDate);
    if errs == [] then Success(DateRangeParams(code, Normalized(date), Normalized(fromDate), Normalized(toDate)))
    else Failure(ValidationError("DateRangeParams", errs))
  }

  function NewListedIssuesParams(code: Option<string>, date: Option<string>)
    : (r: Result<ListedIssuesParams, ValidationError>)
    ensures r.Success? <==> Accepts(date)
    ensures r.Success? ==> r.value == ListedIssuesParams(code, Normalized(date))
    ensures r.Failure? ==> r.error == ValidationError("ListedIssuesParams", [FieldError("date", DateFormatMessage, date)])
  {
    var errs := DateErrors("date", date);
    if errs == [] then Success(ListedIssuesParams(code, Normalized(date)))
    else Failure(ValidationError("ListedIssuesParams", errs))
  }

  function NewFinancialParams(code: Option<string>, date: Option<string>)
    : (r: Result<FinancialParams, ValidationError>)
    ensures r.Success? <==> Accepts(date)
    ensures r.Success? ==> r.value == FinancialParams(code, Normalized(date))
    ensures r.Failure? ==> r.error == ValidationError("FinancialParams", [FieldError("date", DateFormatMessage, date)])
  {
    var errs := DateErrors("date", date);
    if errs == [] then Success(FinancialParams(code, Normalized(date)))
    else Failure(ValidationError("FinancialParams", errs))
  }

  function NewMarginInterestParams(code: Option<string>, date: Option<string>, fromDate: Option<string>, toDate: Option<string>)
    : (r: Result<MarginInterestParams, ValidationError>)
    ensures r.Success? <==> Accepts(date) && Accepts(fromDate) && Accepts(toDate)
    ensures r.Success? ==> r.value == MarginInterestParams(code, Normalized(date), Normalized(fromDate), Normalized(toDate))
    ensures r.Failure? ==> r.error.model == "MarginInterestParams"
    ensures r.Failure? ==>
      r.error.errors == DateErrors("date", date) + DateErrors("from_date", fromDate) + DateErrors("to_date", toDate)
  {
    var errs := DateErrors("date", date) + DateErrors("from_date", fromDate) + DateErrors("to_date", toDate);
    if errs == [] then Success(MarginInterestParams(code, Normalized(date), Normalized(fromDate), Normalized(toDate)))
    else Failure(ValidationError("MarginInterestParams", errs))
  }

  function NewInvestorTradingParams(section: Option<string>, fromDate: Option<string>, toDate: Option<string>)
    : (r: Result<InvestorTradingParams, ValidationError>)
    ensures r.Success? <==> Accepts(fromDate) && Accepts(toDate)
    ensures r.Success? ==> r.value == InvestorTradingParams(section, Normalized(fromDate), Normalized(toDate))
    ensures r.Failure? ==> r.error.model == "InvestorTradingParams"
    ensures r.Failure? ==> r.error.errors == DateErrors("from_date", fromDate) + DateErrors("to_date", toDate)
  {
    var errs := DateErrors("from_date", fromDate) + DateErrors("to_date", toDate);
    if errs == [] then Success(InvestorTradingParams(section, Normalized(fromDate), Normalized(toDate)))
    else Failure(ValidationError("InvestorTradingParams", errs))
  }

  /** The error records the rejected input, so two different bad dates give two different errors. */
  lemma ErrorsCarryRejectedInput(code: Option<string>, d1: Option<string>, d2: Option<string>)
    requires !Accepts(d1) && !Accepts(d2) && d1 != d2
    ensures NewListedIssuesParams(code, d1).Failure? && NewListedIssuesParams(code, d2).Failure?
    ensures NewListedIssuesParams(code, d1).error != NewListedIssuesParams(code, d2).error
  {
  }

  /** Arguments passed as `None` always build: every date field then holds "", and code and section stay `None`. */
  lemma AbsentArgumentsBuild()
    ensures NewDateRangeParams(None, None, None, None) == Success(DateRangeParams(None, Some(""), Some(""), Some("")))
    ensures NewListedIssuesParams(None, None) == Success(ListedIssuesParams(None, Some("")))
    ensures NewFinancialParams(None, None) == Success(FinancialParams(None, Some("")))
    ensures NewMarginInterestParams(None, None, None, None) == Success(MarginInterestParams(None, Some(""), Some(""), Some("")))
    ensures NewInvestorTradingParams(None, None, None) == Success(InvestorTradingParams(None, Some(""), Some("")))
  {
  }
}

=== FILE: tool_properties.dfy ===
/**
  The tool set as registered with the host, and the properties every tool shares:
  validation guards the upstream call, absent arguments reach the client as "", errors
  come back as "Error: " text, success is the last reply's table as records, and only
  get_financial_summary ever makes a second call.
 */
module ToolProperties {
  import opened Wrappers
  import opened DateFormat
  import opened Params
  import opened Frames
  import opened Upstream
  import opened Tools

  datatype Tool =
    | ListedIssues | DailyQuotes | FinancialSummary | EarningsCalendar | IndicesDaily
    | MarketSegmentBreakdown | FinancialDividends | FinancialStatementsDetail | ShortSaleRatio
    | MarketMarginInterest | InvestorTradingTrends

  /** Every argument a tool can take; a tool reads only the ones it declares. */
  datatype ToolArgs = ToolArgs(
    code: Option<string>, date: Option<string>, fromDate: Option<string>, toDate: Option<string>,
    section: Option<string>)

  const NoArgs := ToolArgs(None, None, None, None, None)

  /** The host's dispatch of a tool name to its handler. */
  function Invoke(env: Env, t: Tool, a: ToolArgs): Invocation
  {
    match t
    case ListedIssues => GetListedIssues(env, a.code, a.date)
    case DailyQuotes => GetDailyQuotes(env, a.code, a.date, a.fromDate, a.toDate)
    case FinancialSummary => GetFinancialSummary(env, a.code, a.date)
    case EarningsCalendar => GetEarningsCalendar(env)
    case IndicesDaily => GetIndicesDaily(env, a.code, a.date, a.fromDate, a.toDate)
    case MarketSegmentBreakdown => GetMarketSegmentBreakdown(env, a.date, a.fromDate, a.toDate)
    case FinancialDividends => GetFinancialDividends(env, a.code, a.date, a.fromDate, a.toDate)
    case FinancialStatementsDetail => GetFinancialStatementsDetail(env, a.code, a.date)
    case ShortSaleRatio => GetShortSaleRatio(env, a.code, a.date, a.fromDate, a.toDate)
    case MarketMarginInterest => GetMarketMarginInterest(env, a.code, a.date, a.fromDate, a.toDate)
    case InvestorTradingTrends => GetInvestorTradingTrends(env, a.section, a.fromDate, a.toDate)
  }

  /** The date arguments a tool validates are all accepted: which ones depends on its parameter class. */
  predicate ArgumentsValid(t: Tool, a: ToolArgs)
  {
    match t
    case EarningsCalendar => true
    case ListedIssues | FinancialSummary | FinancialStatementsDetail => Accepts(a.date)
    case InvestorTradingTrends => Accepts(a.fromDate) && Accepts(a.toDate)
    case _ => Accepts(a.date) && Accepts(a.fromDate) && Accepts(a.toDate)
  }

  function Last(calls: seq<Call>): Call
    requires calls != []
  {
    calls[|calls| - 1]
  }

  /** A tool calls upstream exactly when its date arguments validate; otherwise it returns error text. */
  lemma ValidationGuardsUpstream(env: Env, t: Tool, a: ToolArgs)
    ensures Invoke(env, t, a).calls == [] <==> !ArgumentsValid(t, a)
    ensures !ArgumentsValid(t, a) ==> Invoke(env, t, a).outcome.ErrorText?
  {
  }

  /** With every argument absent, validation passes and every keyword reaches the client as "". */
  lemma AbsentArgumentsReachUpstreamEmpty(env: Env, t: Tool)
    ensures Invoke(env, t, NoArgs).calls != []
    ensures forall i, j :: 0 <= i < |Invoke(env, t, NoArgs).calls| && 0 <= j < |Invoke(env, t, NoArgs).calls[i].args| ==>
              Invoke(env, t, NoArgs).calls[i].args[j].value == ""
  {
  }

  /**
    No exception raised inside a handler escapes as such unless it is not an Exception:
    an error outcome is "Error: " text, and an escaping one is the last reply's exception.
   */
  lemma FailuresBecomeErrorText(env: Env, t: Tool, a: ToolArgs)
    ensures Invoke(env, t, a).outcome.ErrorText? ==> ErrorPrefix <= Invoke(env, t, a).outcome.text
    ensures Invoke(env, t, a).outcome.Escaped? ==>
              && Invoke(env, t, a).calls != []
              && env.api(Last(Invoke(env, t, a).calls)) == Raise(Invoke(env, t, a).outcome.exc)
              && Invoke(env, t, a).outcome.exc.kind == NotAnException
  {
  }

  /** A successful tool returns the last reply's table as records, one per row in row order. */
  lemma SuccessIsUpstreamTable(env: Env, t: Tool, a: ToolArgs)
    ensures Invoke(env, t, a).outcome.Records? ==>
              && Invoke(env, t, a).calls != []
              && env.api(Last(Invoke(env, t, a).calls)).Frame?
              && Invoke(env, t, a).outcome.rows == ToRecords(env.api(Last(Invoke(env, t, a).calls)).table)
  {
  }

  /**
    Only get_financial_summary makes a second call, only after a TypeError, and the
    second call repeats the first with the date keyword spelt `date`.
   */
  lemma RetryOnlyAfterTypeError(env: Env, t: Tool, a: ToolArgs)
    ensures |Invoke(env, t, a).calls| <= 2
    ensures t != FinancialSummary ==> |Invoke(env, t, a).calls| <= 1
    ensures |Invoke(env, t, a).calls| == 2 ==>
              var calls := Invoke(env, t, a).calls;
              && t == FinancialSummary
              && env.api(calls[0]).Raise? && env.api(calls[0]).exc.kind == TypeErrorKind
              && calls[1].endpoint == calls[0].endpoint
              && |calls[0].args| == |calls[1].args| == 2
              && calls[1].args[0] == calls[0].args[0]
              && calls[1].args[1] == Kwarg("date", calls[0].args[1].value)
  {
  }

  /** Any other failure of the first get_financial_summary call is final: no retry. */
  lemma NoRetryAfterOtherFailure(env: Env, a: ToolArgs)
    requires Accepts(a.date)
    requires env.api(Invoke(env, FinancialSummary, a).calls[0]).Raise?
    requires env.api(Invoke(env, FinancialSummary, a).calls[0]).exc.kind == OtherError
    ensures Invoke(env, FinancialSummary, a).calls == [Invoke(env, FinancialSummary, a).calls[0]]
    ensures Invoke(env, FinancialSummary, a).outcome
         == Fail(env, Raised(env.api(Invoke(env, FinancialSummary, a).calls[0]).exc))
  {
  }

  /** get_earnings_calendar ignores every argument and calls `get_eq_earnings_cal()` with none. */
  lemma EarningsCalendarIgnoresArguments(env: Env, a: ToolArgs, b: ToolArgs)
    ensures Invoke(env, EarningsCalendar, a) == Invoke(env, EarningsCalendar, b)
    ensures Invoke(env, EarningsCalendar, a).calls == [Call("get_eq_earnings_cal", [])]
  {
  }

  /** `a` and `b` agree on every argument tool `t` reads, each date compared by its normalised value. */
  predicate SameReadArgs(t: Tool, a: ToolArgs, b: ToolArgs)
    requires ArgumentsValid(t, a) && ArgumentsValid(t, b)
  {
    match t
    case EarningsCalendar => true
    case ListedIssues | FinancialSummary | FinancialStatementsDetail =>
      a.code == b.code && Clean(a.date) == Clean(b.date)
    case MarketSegmentBreakdown =>
      Clean(a.date) == Clean(b.date) && Clean(a.fromDate) == Clean(b.fromDate) && Clean(a.toDate) == Clean(b.toDate)
    case InvestorTradingTrends =>
      a.section == b.section && Clean(a.fromDate) == Clean(b.fromDate) && Clean(a.toDate) == Clean(b.toDate)
    case _ =>
      a.code == b.code && Clean(a.date) == Clean(b.date) && Clean(a.fromDate) == Clean(b.fromDate)
      && Clean(a.toDate) == Clean(b.toDate)
  }

  /**
    A tool's outcome depends only on the arguments it reads, and on each date only through
    its normalised value: arguments it does not read do not matter.
   */
  lemma HandlersSeeOnlyNormalisedDates(env: Env, t: Tool, a: ToolArgs, b: ToolArgs)
    requires ArgumentsValid(t, a) && ArgumentsValid(t, b)
    requires SameReadArgs(t, a, b)
    ensures Invoke(env, t, a) == Invoke(env, t, b)
  {
  }

  /**
    get_investor_trading_trends ignores `code` and `date` entirely, even a date that would
    not validate, whether its own range dates validate or not.
   */
  lemma InvestorTradingIgnoresCodeAndDate(env: Env, a: ToolArgs, b: ToolArgs)
    requires a.section == b.section && a.fromDate == b.fromDate && a.toDate == b.toDate
    ensures Invoke(env, InvestorTradingTrends, a) == Invoke(env, InvestorTradingTrends, b)
  {
  }
}

=== FILE: tools.dfy ===
/**
  The eleven tool handlers of jquants_mcp/__main__.py. Each one builds its parameter
  class (validating the dates), calls one upstream client method with that tool's fixed
  keyword names and `value or ""` for every field, and converts the returned table to
  records. Any `Exception` the body raises becomes the text "Error: " followed by
  the exception's text. A handler is a pure function of the client, the exception
  renderer and the raw optional arguments; it reports the upstream calls it made beside
  its outcome.
 */
module Tools {
  import opened Wrappers
  import opened DateFormat
  import opened Params
  import opened Frames
  import opened Upstream

  /** An exception a handler body can raise: a failed parameter class or a client exception. */
  datatype Exception = Invalid(validation: ValidationError) | Raised(upstream: UpstreamException)

  /** What a handler depends on: the shared client and `str(e)` for the exceptions it catches. */
  datatype Env = Env(api: Client, render: Exception -> string)

  /**
    What the tool returns: the records, the error text, or an exception that escapes the
    `except Exception` clause because it is not an Exception.
   */
  datatype Outcome = Records(rows: seq<Record>) | ErrorText(text: string) | Escaped(exc: UpstreamException)

  /** One invocation: the upstream calls made, in order, and the outcome. */
  datatype Invocation = Invocation(calls: seq<Call>, outcome: Outcome)

  const ErrorPrefix: string := "Error: "

  /** `v or ""`. */
  function OrEmpty(v: Option<string>): (s: string)
    ensures v.None? ==> s == ""
    ensures v.Some? ==> s == v.value
  {
    match v
    case None => ""
    case Some(x) => x
  }

  /** `return f"Error: {e}"` for a caught exception. */
  function Fail(env: Env, e: Exception): (o: Outcome)
    ensures o.ErrorText? && ErrorPrefix <= o.text
    ensures o.text[|ErrorPrefix|..] == env.render(e)
  {
    ErrorText(ErrorPrefix + env.render(e))
  }

  /** The outcome once the last upstream call has replied. */
  function Finish(env: Env, reply: Reply): (o: Outcome)
    ensures reply.Frame? ==> o == Records(ToRecords(reply.table)) && |o.rows| == |reply.table.rows|
    ensures o.ErrorText? <==> reply.Raise? && reply.exc.kind != NotAnException
    ensures o.ErrorText? ==> o == Fail(env, Raised(reply.exc))
    ensures o.Escaped? <==> reply.Raise? && reply.exc.kind == NotAnException
    ensures o.Escaped? ==> reply == Raise(o.exc)
  {
    match reply
    case Frame(t) => Records(ToRecords(t))
    case Raise(x) => if x.kind == NotAnException then Escaped(x) else Fail(env, Raised(x))
  }

  /** A handler that makes the single call `c` and finishes with its reply. */
  function Forward(env: Env, c: Call): (r: Invocation)
    ensures r.calls == [c]
    ensures r.outcome.Records? <==> env.api(c).Frame?
    ensures r.outcome.Records? ==> r.outcome.rows == ToRecords(env.api(c).table)
    ensures r.outcome.ErrorText? <==> env.api(c).Raise? && env.api(c).exc.kind != NotAnException
    ensures r.outcome.ErrorText? ==> ErrorPrefix <= r.outcome.text
    ensures r.outcome.Escaped? ==> env.api(c) == Raise(r.outcome.exc)
  {
    Invocation([c], Finish(env, env.api(c)))
  }


  /** The handler made no call and returned the error text of the validation failure `e`. */
  predicate RejectedWith(env: Env, r: Invocation, e: ValidationError)
  {
    r.calls == [] && r.outcome == Fail(env, Invalid(e))
  }

  /** get_listed_issues: `get_eq_master(code, date_yyyymmdd)`. */
  function GetListedIssues(env: Env, code: Option<string>, date: Option<string>): (r: Invocation)
    ensures !Accepts(date) ==>
      RejectedWith(env, r, ValidationError("ListedIssuesParams", [FieldError("date", DateFormatMessage, date)]))
    ensures Accepts(date) ==>
      r == Forward(env, Call("get_eq_master", [Kwarg("code", OrEmpty(code)), Kwarg("date_yyyymmdd", Clean(date))]))
  {
    match NewListedIssuesParams(code, date)
    case Failure(e) => Invocation([], Fail(env, Invalid(e)))
    case Success(p) =>
      Forward(env, Call("get_eq_master", [Kwarg("code", OrEmpty(p.code)), Kwarg("date_yyyymmdd", OrEmpty(p.date))]))
  }

  /** get_daily_quotes: `get_eq_bars_daily(code, date_yyyymmdd, from_yyyymmdd, to_yyyymmdd)`. */
  function GetDailyQuotes(env: Env, code: Option<string>, date: Option<string>, fromDate: Option<string>, toDate: Option<string>)
    : (r: Invocation)
    ensures !(Accepts(date) && Accepts(fromDate) && Accepts(toDate)) ==>
      RejectedWith(env, r, NewDateRangeParams(code, date, fromDate, toDate).error)
    ensures Accepts(date) && Accepts(fromDate) && Accepts(toDate) ==>
      r == Forward(env, Call("get_eq_bars_daily",
        [Kwarg("code", OrEmpty(code)), Kwarg("date_yyyymmdd", Clean(date)),
         Kwarg("from_yyyymmdd", Clean(fromDate)), Kwarg("to_yyyymmdd", Clean(toDate))]))
  {
    match NewDateRangeParams(code, date, fromDate, toDate)
    case Failure(e) => Invocation([], Fail(env, Invalid(e)))
    case Success(p) =>
      Forward(env, Call("get_eq_bars_daily",
        [Kwarg("code", OrEmpty(p.code)), Kwarg("date_yyyymmdd", OrEmpty(p.date)),
         Kwarg("from_yyyymmdd", OrEmpty(p.fromDate)), Kwarg("to_yyyymmdd", OrEmpty(p.toDate))]))
  }

  /**
    get_financial_summary: `get_fin_summary(code, date_yyyymmdd)`; when that raises a
    TypeError, one more call `get_fin_summary(code, date)`, whose reply then decides.
   */
  function GetFinancialSummary(env: Env, code: Option<string>, date: Option<string>): (r: Invocation)
    ensures !Accepts(date) ==>
      RejectedWith(env, r, ValidationError("FinancialParams", [FieldError("date", DateFormatMessage, date)]))
    ensures Accepts(date) ==> 1 <= |r.calls| <= 2
    ensures Accepts(date) ==>
      r.calls[0] == Call("get_fin_summary", [Kwarg("code", OrEmpty(code)), Kwarg("date_yyyymmdd", Clean(date))])
    ensures Accepts(date) ==>
      (|r.calls| == 2 <==> env.api(r.calls[0]).Raise? && env.api(r.calls[0]).exc.kind == TypeErrorKind)
    ensures |r.calls| == 1 ==> r.outcome == Finish(env, env.api(r.calls[0]))
    ensures |r.calls| == 2 ==>
      && r.calls[1] == Call("get_fin_summary", [Kwarg("code", OrEmpty(code)), Kwarg("date", Clean(date))])
      && r.outcome == Finish(env, env.api(r.calls[1]))
  {
    match NewFinancialParams(code, date)
    case Failure(e) => Invocation([], Fail(env, Invalid(e)))
    case Success(p) =>
      var primary := Call("get_fin_summary", [Kwarg("code", OrEmpty(p.code)), Kwarg("date_yyyymmdd", OrEmpty(p.date))]);
      match env.api(primary)
      case Raise(UpstreamException(TypeErrorKind, _)) =>
        var fallback := Call("get_fin_summary", [Kwarg("code", OrEmpty(p.code)), Kwarg("date", OrEmpty(p.date))]);
        Invocation([primary, fallback], Finish(env, env.api(fallback)))
      case reply => Invocation([primary], Finish(env, reply))
  }

  /** get_earnings_calendar: `get_eq_earnings_cal()`, no arguments and nothing to validate. */
  function GetEarningsCalendar(env: Env): (r: Invocation)
    ensures r == Forward(env, Call("get_eq_earnings_cal", []))
  {
    Forward(env, Call("get_eq_earnings_cal", []))
  }

  /** get_indices_daily: `get_idx_bars_daily(code, date_yyyymmdd, from_yyyymmdd, to_yyyymmdd)`. */
  function GetIndicesDaily(env: Env, code: Option<string>, date: Option<string>, fromDate: Option<string>, toDate: Option<string>)
    : (r: Invocation)
    ensures !(Accepts(date) && Accepts(fromDate) && Accepts(toDate)) ==>
      RejectedWith(env, r, NewDateRangeParams(code, date, fromDate, toDate).error)
    ensures Accepts(date) && Accepts(fromDate) && Accepts(toDate) ==>
      r == Forward(env, Call("get_idx_bars_daily",
        [Kwarg("code", OrEmpty(code)), Kwarg("date_yyyymmdd", Clean(date)),
         Kwarg("from_yyyymmdd", Clean(fromDate)), Kwarg("to_yyyymmdd", Clean(toDate))]))
  {
    match NewDateRangeParams(code, date, fromDate, toDate)
    case Failure(e) => Invocation([], Fail(env, Invalid(e)))
    case Success(p) =>
      Forward(env, Call("get_idx_bars_daily",
        [Kwarg("code", OrEmpty(p.code)), Kwarg("date_yyyymmdd", OrEmpty(p.date)),
         Kwarg("from_yyyymmdd", OrEmpty(p.fromDate)), Kwarg("to_yyyymmdd", OrEmpty(p.toDate))]))
  }

  /** get_market_segment_breakdown: `get_mkt_breakdown(date_yyyymmdd, from_yyyymmdd, to_yyyymmdd)`, no code. */
  function GetMarketSegmentBreakdown(env: Env, date: Option<string>, fromDate: Option<string>, toDate: Option<string>)
    : (r: Invocation)
    ensures !(Accepts(date) && Accepts(fromDate) && Accepts(toDate)) ==>
      RejectedWith(env, r, NewDateRangeParams(None, date, fromDate, toDate).error)
    ensures Accepts(date) && Accepts(fromDate) && Accepts(toDate) ==>
      r == Forward(env, Call("get_mkt_breakdown",
        [Kwarg("date_yyyymmdd", Clean(date)), Kwarg("from_yyyymmdd", Clean(fromDate)), Kwarg("to_yyyymmdd", Clean(toDate))]))
  {
    match NewDateRangeParams(None, date, fromDate, toDate)
    case Failure(e) => Invocation([], Fail(env, Invalid(e)))
    case Success(p) =>
      Forward(env, Call("get_mkt_breakdown",
        [Kwarg("date_yyyymmdd", OrEmpty(p.date)), Kwarg("from_yyyymmdd", OrEmpty(p.fromDate)),
         Kwarg("to_yyyymmdd", OrEmpty(p.toDate))]))
  }

  /** get_financial_dividends: `get_fin_dividend(code, date_yyyymmdd, from_yyyymmdd, to_yyyymmdd)`. */
  function GetFinancialDividends(env: Env, code: Option<string>, date: Option<string>, fromDate: Option<string>, toDate: Option<string>)
    : (r: Invocation)
    ensures !(Accepts(date) && Accepts(fromDate) && Accepts(toDate)) ==>
      RejectedWith(env, r, NewDateRangeParams(code, date, fromDate, toDate).error)
    ensures Accepts(date) && Accepts(fromDate) && Accepts(toDate) ==>
      r == Forward(env, Call("get_fin_dividend",
        [Kwarg("code", OrEmpty(code)), Kwarg("date_yyyymmdd", Clean(date)),
         Kwarg("from_yyyymmdd", Clean(fromDate)), Kwarg("to_yyyymmdd", Clean(toDate))]))
  {
    match NewDateRangeParams(code, date, fromDate, toDate)
    case Failure(e) => Invocation([], Fail(env, Invalid(e)))
    case Success(p) =>
      Forward(env, Call("get_fin_dividend",
        [Kwarg("code", OrEmpty(p.code)), Kwarg("date_yyyymmdd", OrEmpty(p.date)),
         Kwarg("from_yyyymmdd", OrEmpty(p.fromDate)), Kwarg("to_yyyymmdd", OrEmpty(p.toDate))]))
  }

  /** get_financial_statements_detail: `get_fin_details(code, date_yyyymmdd)`. */
  function GetFinancialStatementsDetail(env: Env, code: Option<string>, date: Option<string>): (r: Invocation)
    ensures !Accepts(date) ==>
      RejectedWith(env, r, ValidationError("FinancialParams", [FieldError("date", DateFormatMessage, date)]))
    ensures Accepts(date) ==>
      r == Forward(env, Call("get_fin_details", [Kwarg("code", OrEmpty(code)), Kwarg("date_yyyymmdd", Clean(date))]))
  {
    match NewFinancialParams(code, date)
    case Failure(e) => Invocation([], Fail(env, Invalid(e)))
    case Success(p) =>
      Forward(env, Call("get_fin_details", [Kwarg("code", OrEmpty(p.code)), Kwarg("date_yyyymmdd", OrEmpty(p.date))]))
  }

  /**
    get_short_sale_ratio: `get_mkt_short_sale_report(code, disclosed_date,
    disclosed_date_from, disclosed_date_to)`.
   */
  function GetShortSaleRatio(env: Env, code: Option<string>, date: Option<string>, fromDate: Option<string>, toDate: Option<string>)
    : (r: Invocation)
    ensures !(Accepts(date) && Accepts(fromDate) && Accepts(toDate)) ==>
      RejectedWith(env, r, NewDateRangeParams(code, date, fromDate, toDate).error)
    ensures Accepts(date) && Accepts(fromDate) && Accepts(toDate) ==>
      r == Forward(env, Call("get_mkt_short_sale_report",
        [Kwarg("code", OrEmpty(code)), Kwarg("disclosed_date", Clean(date)),
         Kwarg("disclosed_date_from", Clean(fromDate)), Kwarg("disclosed_date_to", Clean(toDate))]))
  {
    match NewDateRangeParams(code, date, fromDate, toDate)
    case Failure(e) => Invocation([], Fail(env, Invalid(e)))
    case Success(p) =>
      Forward(env, Call("get_mkt_short_sale_report",
        [Kwarg("code", OrEmpty(p.code)), Kwarg("disclosed_date", OrEmpty(p.date)),
         Kwarg("disclosed_date_from", OrEmpty(p.fromDate)), Kwarg("disclosed_date_to", OrEmpty(p.toDate))]))
  }

  /** get_market_margin_interest: `get_mkt_margin_interest(code, date_yyyymmdd, from_yyyymmdd, to_yyyymmdd)`. */
  function GetMarketMarginInterest(env: Env, code: Option<string>, date: Option<string>, fromDate: Option<string>, toDate: Option<string>)
    : (r: Invocation)
    ensures !(Accepts(date) && Accepts(fromDate) && Accepts(toDate)) ==>
      RejectedWith(env, r, NewMarginInterestParams(code, date, fromDate, toDate).error)
    ensures Accepts(date) && Accepts(fromDate) && Accepts(toDate) ==>
      r == Forward(env, Call("get_mkt_margin_interest",
        [Kwarg("code", OrEmpty(code)), Kwarg("date_yyyymmdd", Clean(date)),
         Kwarg("from_yyyymmdd", Clean(fromDate)), Kwarg("to_yyyymmdd", Clean(toDate))]))
  {
    match NewMarginInterestParams(code, date, fromDate, toDate)
    case Failure(e) => Invocation([], Fail(env, Invalid(e)))
    case Success(p) =>
      Forward(env, Call("get_mkt_margin_interest",
        [Kwarg("code", OrEmpty(p.code)), Kwarg("date_yyyymmdd", OrEmpty(p.date)),
         Kwarg("from_yyyymmdd", OrEmpty(p.fromDate)), Kwarg("to_yyyymmdd", OrEmpty(p.toDate))]))
  }

  /** get_investor_trading_trends: `get_eq_investor_types(section, from_yyyymmdd, to_yyyymmdd)`. */
  function GetInvestorTradingTrends(env: Env, section: Option<string>, fromDate: Option<string>, toDate: Option<string>)
    : (r: Invocation)
    ensures !(Accepts(fromDate) && Accepts(toDate)) ==>
      RejectedWith(env, r, NewInvestorTradingParams(section, fromDate, toDate).error)
    ensures Accepts(fromDate) && Accepts(toDate) ==>
      r == Forward(env, Call("get_eq_investor_types",
        [Kwarg("section", OrEmpty(section)), Kwarg("from_yyyymmdd", Clean(fromDate)), Kwarg("to_yyyymmdd", Clean(toDate))]))
  {
    match NewInvestorTradingParams(section, fromDate, toDate)
    case Failure(e) => Invocation([], Fail(env, Invalid(e)))
    case Success(p) =>
      Forward(env, Call("get_eq_investor_types",
        [Kwarg("section", OrEmpty(p.section)), Kwarg("from_yyyymmdd", OrEmpty(p.fromDate)),
         Kwarg("to_yyyymmdd", OrEmpty(p.toDate))]))
  }
}

=== FILE: upstream.dfy ===
/**
  The upstream market-data client as the handlers see it: a call names a client method
  and passes keyword arguments; the reply is a table or a raised exception. What the
  client does with a call is not modelled; the handlers receive it as a function.
 */
module Upstream {
  import opened Frames

  /** One keyword argument, `name=value`. */
  datatype Kwarg = Kwarg(name: string, value: string)

  /** One call of a client method with keyword arguments in source order. */
  datatype Call = Call(endpoint: string, args: seq<Kwarg>)

  /**
    The class of an exception the client raises: a TypeError (how Python reports an
    unexpected keyword argument), any other Exception, or a BaseException that is not an
    Exception, such as a KeyboardInterrupt or SystemExit raised during the blocking call.
   */
  datatype ExceptionKind = TypeErrorKind | OtherError | NotAnException

  datatype UpstreamException = UpstreamException(kind: ExceptionKind, detail: string)

  datatype Reply = Frame(table: Table) | Raise(exc: UpstreamException)

  /** The client, as a function from a call to its reply. */
  type Client = Call -> Reply
}

=== FILE: wrappers.dfy ===
/** Optional values and raise-or-return results shared by the whole model. */
module Wrappers {

  /** A Python `str | None`: `None` is an absent argument. */
  datatype Option<+T> = None | Some(value: T)

  /** A computation that either returns a value or raises an error. */
  datatype Result<+R, +E> = Success(value: R) | Failure(error: E)
}
